=== FILE: README.md ===
# oss — a Dafny model of a small object-storage gateway

The gateway accepts file uploads over HTTP and serves them back. The
repository holds two versions of it:

- **oss.go**, the indexed gateway (module `OssIndexed`). An upload is checked
  (a non-empty project, a readable form, the size limit, a file part). It is
  then placed in a time-bucketed tree
  `/home/oss/storage/<project>/[<module>/]YYYYMMDD/HH/<name>`, and the file
  name is optionally replaced by the hex MD5 of a fresh UUID plus the
  original extension. An existing file at that path refuses the upload.
  Otherwise the file is written and a JSON record is committed to a
  key-value index (leveldb) under a short key that the key generator found
  absent. A download strips the route `/oss/api/v1/download/` from the
  request URI, looks the key up, decodes the record and opens the file.
  `SyncFileIndex` walks the storage tree and adds every file under a new key.
- **main.go**, the index-less gateway (module `OssPlain`). An upload is
  written to the same layout, as path text starting with `/home/oss/`, and the
  answer is the save path with that root removed. A download puts the root back in front of the
  URI with the route removed.
- **utils/utils.go** (module `Utils`): `GetUUID`'s 8-4-4-4-12 layout, the
  lowercase hex output of `MD5`/`GetFileMd5`, and `ListFile`, which keeps
  the walk's files in order with backslashes turned into slashes.

Supporting modules:

- `Text` models the Go library string functions the code relies on:
  `strings.Replace` with count 1, `strings.Replace` of one character with
  count -1, and `path.Ext`.
- `TimeLayout` models the time layout `"20060102/15/"`, with a parser that
  inverts it.
- `Layout` holds the storage-path layout both versions share, and the way
  both actually assemble the save path with `fmt.Sprintf`.

The indexed gateway's state is the class `OssIndexed.Gateway`. Its fields
are the index (a map from key to record or bare path) and the storage tree
(a map from path to bytes). Its methods `Upload` and `SyncFileIndex` change
those fields. Each method is proved equal to a pure function
(`UploadEffect`, `Reindexed`), and the lemmas about upload, download and
reindexing are stated over those functions.

The model treats the following as inputs:

- the calendar fields of the current hour;
- the MD5 digests;
- the outcome of file creation and copying;
- the clock in milliseconds;
- the list of entries produced by the directory walk;
- the short-key generator, a function of the seed path and the keys present.

The generator's own contract ("it only returns a key its callback found
absent") is the predicate `OssIndexed.GenFresh`. It is a hypothesis of the
lemmas that need it, not a precondition of the handlers.

## Model

| member | source | states |
|---|---|---|
| Text.ReplaceFirst | oss.go:202 | `strings.Replace(s, pat, rep, 1)`: without an occurrence, the string is unchanged. Otherwise the first occurrence, wherever it is, is replaced by `rep` and everything around it is kept; with `pat` as a prefix, the result is `rep` followed by the rest |
| Text.ReplaceFirstOfPrefix | main.go:101 | Removing the first occurrence of a prefix gives back what followed it |
| Text.ReplaceAll | utils/utils.go:23 | `strings.Replace(p, "\\", "/", -1)`: same length; every occurrence of the character is replaced and every other character is kept |
| Text.ReplaceAllIdempotent | utils/utils.go:23 | Normalising twice is the same as normalising once |
| Text.Ext | oss.go:138 | `path.Ext`: a suffix of the name starting at its last dot, with no slash and no further dot; empty exactly when every dot of the name is followed by a slash |
| TimeLayout.Pad | oss.go:142 | A zero-padded decimal: digits only, denotes `n`, and is exactly `width` long when `n` fits |
| TimeLayout.Format | oss.go:142 | The `"20060102/15/"` bucket: digits and slashes; for a valid hour, 12 characters with slashes at 8 and 11 and digits elsewhere |
| TimeLayout.ParseFormat | oss.go:142 | Parsing a formatted valid hour gives back the hour |
| TimeLayout.FormatInjective | oss.go:142 | Distinct valid hours give distinct buckets |
| TimeLayout.FormatExample | main.go:66 | 10 o'clock on 1 May 2024 falls in bucket `20240501/10/` |
| Utils.HexEncode | utils/utils.go:46 | `%x` of a byte sequence: two lowercase hex characters per byte |
| Utils.HexRoundTrip | utils/utils.go:46 | Decoding the hex text gives back the bytes |
| Utils.HexInjective | utils/utils.go:53 | Different byte sequences have different hex texts |
| Utils.HexDigest | utils/utils.go:43-47 | The MD5 text is 32 lowercase hex characters and decodes to the digest |
| Utils.GetUUID | utils/utils.go:34-41 | Empty exactly when the random read fails; otherwise 36 characters with dashes at 8, 13, 18 and 23 and lowercase hex elsewhere |
| Utils.UUIDWithoutDashes | utils/utils.go:40 | Removing the dashes gives back the 32-character id the UUID was cut from |
| Utils.Normalize | utils/utils.go:23 | A normalised path holds no backslash |
| Utils.ListFile | utils/utils.go:20-28 | The loop's list equals the walk's file entries, normalised, in walk order; no listed path holds a backslash |
| Utils.FilesMembership | utils/utils.go:21-23 | A path is listed if and only if some non-directory entry of the walk normalises to it |
| Utils.FilesConcat | utils/utils.go:21-26 | Listing preserves walk order: the list of a concatenated walk is the concatenation of the lists |
| Utils.FilesNormalised | utils/utils.go:23 | Every listed path is already normalised |
| Layout.DirPath | oss.go:144-147 | `filePath`: starts with the base root, the project and a slash, and for a valid hour ends with the 12-character bucket, which parses back to that hour |
| Layout.SavePathInjective | oss.go:143-149 | When project, module and name hold no slash, the save path text determines project, module, hour and name, so distinct uploads never share a path text. Spellings such as module `.` still name the same file (see Left out). Without that hypothesis they can: project `a/b` with no module and project `a` with module `b` share a save path, so oss.go refuses the second upload as a duplicate and main.go overwrites the first file |
| Layout.SlashProjectCollides | oss.go:143-149 | Project `a/b` without a module and project `a` with module `b` get the same save path |
| Layout.Sprintf | oss.go:145-148 | `fmt.Sprintf(format, arg)` with one string operand: a format without a percent sign is copied, and the unused operand is reported as `%!(EXTRA string=...)` |
| Layout.SavePathAsWritten | main.go:69-72 | The save path as the code builds it, with `filePath` as format text: the formatting can only break down when the base, project or module holds a percent sign |
| Layout.SprintfPlain | oss.go:144 | `fmt.Sprintf` copies format text without a percent sign to the output unchanged |
| Layout.SavePathAsWrittenAgrees | oss.go:145-148 | Without a percent sign in the base and the client's names, the `fmt.Sprintf(filePath+"%s", fileName)` save path equals the intended one |
| Layout.PercentProjectMovesSavePath | main.go:68-72 | Project `%%` makes the save path as written `base + "%/" + bucket + name`, which is not the path below the directory just created |
| OssIndexed.StoredName | oss.go:137-141 | Rename off: the uploaded name exactly. Rename on: 32 lowercase hex characters followed by the uploaded name's extension |
| OssIndexed.RenamedNamesDiffer | oss.go:138 | Renamed files with different UUID digests never share a stored name |
| OssIndexed.NewRecord | oss.go:169-174 | The committed record holds the uploaded name, the stored name and the save path, and its MD5 field is 32 hex characters that decode to the digest of the uploaded bytes |
| OssIndexed.Plan | oss.go:116-149 | The upload is placed if and only if the project is non-empty, the form parsed, the Content-Length is within the limit and there is a file part. An empty project fails first, and an oversized body fails before anything is written to the storage tree. The directory is `BaseStoragePath + project + "/" + [module + "/"] + bucket`, and save path = directory + stored name |
| OssIndexed.UploadEffect | oss.go:114-190 | Non-POST: nothing changes. Empty project or oversized body: rejected with nothing changed. An existing save path: `DuplicateName`, with nothing changed. A failed upload never touches the index. A POST succeeds if and only if it is placed, its save path is free and there is no I/O fault; the disk then holds the uploaded bytes at the save path. Existing files are never changed, and only the save path can be added |
| OssIndexed.UploadCommitsOneKey | oss.go:169-187 | A successful upload adds exactly one key, absent before. Its record holds the save path, the uploaded name and the stored name. The index grows by one, and every other entry is unchanged |
| OssIndexed.UploadKeepsBacked | oss.go:171-172 | After an upload, every record still points at a file on disk whose MD5 is the recorded one |
| OssIndexed.SameNameConflicts | oss.go:150-153 | Without renaming, a second upload of the same name to the same project, module and hour is refused with `DuplicateName` and changes nothing |
| OssIndexed.DownloadKey | oss.go:202 | The key is the URI with its first occurrence of the route cut out, wherever it occurs (so `http://h/oss/api/v1/download/k` gives `http://hk`); the URI after the route when the URI starts with it; the whole URI when the route does not occur |
| OssIndexed.Download | oss.go:202-214 | An absent key fails the lookup. A download succeeds if and only if the key holds a record whose file exists, and it then serves that record and the file's bytes |
| OssIndexed.UploadThenDownload | oss.go:180-211 | Downloading the route followed by the key an upload returned serves the record written for it and exactly the uploaded bytes |
| OssIndexed.ReindexGrows | oss.go:237-247 | Reindexing overwrites no existing key, and the index grows by exactly the number of listed files |
| OssIndexed.ReindexCoversFiles | oss.go:239-246 | Every listed file is reachable afterwards through a key that was absent before |
| OssIndexed.ReindexTwice | oss.go:234-249 | Reindexing is not idempotent: a second run over the same files grows the index again, and a file ends up under two distinct keys |
| OssIndexed.ReindexKeepsBacked | oss.go:246 | Reindexing writes no record, so every record stays backed by its file |
| OssIndexed.ReindexAddsRawPaths | oss.go:246 | Every key reindexing adds holds the bare path of a listed file |
| OssIndexed.ReindexedKeysUnreadable | oss.go:246 | A key added by `SyncFileIndex` cannot be downloaded: its value is a bare path, not a record, so decoding it fails |
| OssIndexed.Gateway.constructor | oss.go:309 | The gateway opens over any index and storage tree, including ones whose records point at files that are gone |
| OssIndexed.Gateway.Upload | oss.go:94-192 | The new index, storage tree and reply are those of `UploadEffect` on the old state; if every record was backed by its file before, it still is |
| OssIndexed.Gateway.SyncFileIndex | oss.go:234-249 | The loop leaves the index equal to `Reindexed` of the old index over `ListFile`'s list. The storage tree is unchanged; if every record was backed by its file before, it still is |
| OssPlain.RelativePath | main.go:88 | The answer is the save path with the base root `/home/oss/` removed: the root followed by the answer is the save path |
| OssPlain.Upload | main.go:51-89 | Non-POST: no answer. Empty project: rejected. The upload succeeds if and only if there is a project, a file part and no I/O fault. The answer is then `project/[module/]bucket/name`, with the uploaded name verbatim, and the root followed by it is the save path |
| OssPlain.DownloadPath | main.go:101 | The file path is the root followed by the URI with its first occurrence of the route cut out, wherever it occurs: the URI after the route when the URI starts with it, the whole URI when the route does not occur |
| OssPlain.UploadDownloadRoundTrip | main.go:88-101 | A POST with a project and a file part and no I/O fault is answered. A request whose raw request target is the route followed by that answer, byte for byte, opens exactly the file the upload wrote. Clients that percent-encode the answer (spaces, non-ASCII names) do not get this, see Left out |

## Left out

- HTTP routing, the CORS headers, multipart parsing, the upload page and the
  `ReturnJson` envelope are I/O plumbing. A reply is a datatype with one
  constructor per error message.
- `SyncConfig` and `CreateExampleConfig` read TOML and copy files. The
  configured rename flag and size limit are the `Config` input.
- `compress.GenShortUrl` is not part of this model. The short-key generator is
  the function parameter `KeyGen`, and its freshness is the hypothesis
  `GenFresh`.
- The `ratelimit` package is not part of this model. The rate-limited copy of
  a download is left out, together with its error message and the response
  headers.
- MD5 itself, `crypto/rand`, `base64`, `time.Now` with the local time zone,
  `os.Stat`, `os.Create`, `io.Copy` and `filepath.Walk` are inputs: digests,
  calendar fields, an `IoFault`, the storage map and a sequence of walk
  entries.
- `os.MkdirAll` and `FileExists` are left out. Directories are not modelled,
  and the source ignores the `MkdirAll` error.
- Years of 10000 and more are not covered by the layout lemmas. Go prints
  them with more digits.
- `Bytes2Str` is an unsafe pointer reinterpretation and is left out.
- The stat-then-create race and concurrent key allocation are left out. Each
  handler call is one atomic step.
- The ignored `dbConn.Put` error is left out, because the map update cannot
  fail.
- The `json.Marshal` failure branch after an upload cannot be taken for a
  `FileInfo`, so it is left out.
- The `file == nil` branches after a successful `os.Open` cannot be taken, so
  they are left out.
- The walk callback never returns an error, and a failed root stat lists
  nothing. So `ListFile` is modelled on the entries the walk visits, and its
  error result is left out.
- Request URIs are used as the raw request target, as the source does: no
  percent-decoding, and a query string stays part of the key or path. A client
  that percent-encodes the answer of an upload (a space, a non-ASCII name such
  as `报告.pdf`) asks main.go for the encoded path, which does not exist; the
  round trip `OssPlain.UploadDownloadRoundTrip` holds only for a request target
  that carries the answer unencoded.
- Names, paths and URIs are Unicode text. Go strings are bytes and
  `json.Marshal` replaces invalid UTF-8 with U+FFFD, so for a file name that is
  not valid UTF-8 (a GBK client, say) the committed `Path` differs from the
  save path and the download of its key fails to open the file. The round
  trip `OssIndexed.UploadThenDownload` holds only for names that are valid
  UTF-8.
- OssIndexed.UploadEffect, OssIndexed.Gateway.Upload, Layout.SavePathInjective:
  the storage tree is keyed by path text, and the duplicate check compares
  that text, while `os.Stat` resolves the path. Spellings that name an existing
  file differently (project `a/` after `a`, module `.`, `..` segments,
  repeated slashes) are refused by the source as duplicates but accepted by
  the model as a new file and a new record; injectivity is of path text, not
  of files.
- OssIndexed.UploadEffect, OssPlain.Upload, OssPlain.UploadDownloadRoundTrip:
  neither gateway checks the client's project or module, and the save path
  starts with the base root only as text. A `..` segment puts the file outside
  the root: project `../x` makes main.go write `/home/x/<bucket><name>` and
  oss.go write `/home/oss/x/<bucket><name>`. The model keeps such a file under
  its path text, as if it were inside the root. The walk of `SyncFileIndex`
  never sees it, and net/http redirects a download request holding `..` to its
  cleaned path, outside the download route, so the round trip of
  `OssPlain.UploadDownloadRoundTrip` holds only for project, module and name
  without `..` segments.
- Layout.Sprintf: only the `%s` and `%%` verbs of `fmt.Sprintf` with one
  string operand are modelled; any other verb gives `None`.
- OssIndexed.Plan, OssPlain.Upload: build the save path with the intended `Layout.SavePath`, the directory path followed by the file name, and not with `fmt.Sprintf(filePath + "%s", name)` as the source does. They agree with the source only when the base, project and module hold no percent sign (`Layout.SavePathAsWrittenAgrees`). For other names the source's save path, its duplicate check, the record's `Path` and main.go's answer differ from the model (see Findings).
- OssIndexed.Download: stops once the file is opened. The streaming copy and
  its failure are not modelled.
- OssPlain.Upload: the index-less gateway has no duplicate check and
  overwrites an existing file, and a failed copy leaves a partial file. Its
  filesystem is not part of the state, so neither effect appears in the
  model.
- OssPlain.DownloadPath: gives the path that is opened; whether the open
  succeeds is not modelled.
- The `FileInfo.Size` of an upload is the request's Content-Length, which is
  the size of the whole multipart body, not of the file. The model records
  it as is.

## Findings

| source | as written | input that shows it | evidently intended | confidence | as-written member | corrected member |
|---|---|---|---|---|---|---|
| oss.go:144-148 | The save path is built as `fmt.Sprintf(filePath + "%s", fileName)`. `filePath` already contains the client's project and module names, so they are read as format text. main.go:68-72 does the same. | project `%%`, no module: the directory created is `<base>%%/<bucket>`, but the file is saved as `<base>%/<bucket><name>` | save path = directory path + file name | not executed | Layout.PercentProjectMovesSavePath | Layout.SavePath, with Layout.SavePathInjective and Layout.SavePathAsWrittenAgrees |

=== FILE: layout.dfy ===
/**
 * The storage-path layout shared by both versions of the gateway,
 * `base + project + "/" + [module + "/"] + YYYYMMDD/HH/ + name`, and the
 * way both versions actually assemble the save path with `fmt.Sprintf`.
 */
module Layout {
  import opened Wrappers
  import opened Text
  import opened TimeLayout

  /** The module segment of a path: nothing for an empty module name. */
  function ModulePart(moduleName: string): string
  {
    if moduleName == "" then "" else moduleName + "/"
  }

  /**
   * The directory of an upload. The source builds it with
   * `fmt.Sprintf(base + "%s/%s", project, timeFmt)` (or with three operands
   * when a module is given); the base roots hold no percent sign, so that is
   * plain concatenation.
   */
  function DirPath(base: string, project: string, moduleName: string, hour: Hour): (r: string)
    ensures StartsWith(r, base + project + "/")
    ensures Valid(hour) ==> 12 <= |r| && Parse(r[|r| - 12..]) == Some(hour)
  {
    var head := base + project + "/" + ModulePart(moduleName);
    assert (head + Format(hour))[..|base + project + "/"|] == base + project + "/";
    assert Valid(hour) ==> 12 <= |head + Format(hour)| && Parse((head + Format(hour))[|head + Format(hour)| - 12..]) == Some(hour) by {
      if Valid(hour) {
        ParseFormat(hour);
        assert (head + Format(hour))[|head|..] == Format(hour);
      }
    }
    head + Format(hour)
  }

  /** The save path: the upload's directory followed by the stored file name. */
  function SavePath(base: string, project: string, moduleName: string, hour: Hour, name: string): (r: string)
    ensures StartsWith(r, DirPath(base, project, moduleName, hour))
    ensures r[|DirPath(base, project, moduleName, hour)|..] == name
  {
    var dir := DirPath(base, project, moduleName, hour);
    assert (dir + name)[..|dir|] == dir;
    dir + name
  }

  /** The index of the last slash of `s`, if it has one. */
  function LastSlash(s: string): (r: Option<nat>)
    ensures r.Some? ==> r.value < |s| && s[r.value] == '/' && forall j :: r.value < j < |s| ==> s[j] != '/'
    ensures r.None? ==> '/' !in s
  {
    if s == [] then None
    else if s[|s| - 1] == '/' then Some(|s| - 1)
    else
      var r := LastSlash(s[..|s| - 1]);
      assert s == s[..|s| - 1] + [s[|s| - 1]];
      r
  }

  lemma FirstSlashAt(a: string, b: string)
    requires '/' !in a
    ensures FindFrom(a + "/" + b, "/", 0) == Some(|a|)
  {
    var s := a + "/" + b;
    assert OccursAt(s, "/", |a|) by { assert s[|a|..|a| + 1] == "/"; }
    forall j: nat | j < |a| ensures !OccursAt(s, "/", j) {
      assert s[j] == a[j];
    }
  }

  lemma {:induction false} LastSlashAt(a: string, b: string)
    requires '/' !in b
    ensures LastSlash(a + "/" + b) == Some(|a|)
    decreases |b|
  {
    var s := a + "/" + b;
    if b == [] {
      assert s[|s| - 1] == '/';
    } else {
      assert s[|s| - 1] == b[|b| - 1];
      assert s[..|s| - 1] == a + "/" + b[..|b| - 1];
      LastSlashAt(a, b[..|b| - 1]);
    }
  }

  /** Two paths that agree, cut at their first slash, agree on both pieces. */
  lemma SplitFirst(a: string, b: string, a': string, b': string)
    requires '/' !in a && '/' !in a'
    requires a + "/" + b == a' + "/" + b'
    ensures a == a' && b == b'
  {
    FirstSlashAt(a, b);
    FirstSlashAt(a', b');
    var s := a + "/" + b;
    assert a == s[..|a|] && b == s[|a| + 1..];
    assert a' == s[..|a'|] && b' == s[|a'| + 1..];
  }

  /** Two paths that agree, cut at their last slash, agree on both pieces. */
  lemma SplitLast(a: string, b: string, a': string, b': string)
    requires '/' !in b && '/' !in b'
    requires a + "/" + b == a' + "/" + b'
    ensures a == a' && b == b'
  {
    LastSlashAt(a, b);
    LastSlashAt(a', b');
    var s := a + "/" + b;
    assert a == s[..|a|] && b == s[|a| + 1..];
    assert a' == s[..|a'|] && b' == s[|a'| + 1..];
  }

  lemma DigitsHaveNoSlash(s: string)
    requires AllDigits(s)
    ensures '/' !in s
  {
    forall i | 0 <= i < |s| ensures s[i] != '/' { assert IsDigit(s[i]); }
  }

  /** The last slash of the module segment followed by the date tells whether a module is present. */
  lemma ModuleDateSlash(moduleName: string, date: string)
    requires '/' !in moduleName && AllDigits(date)
    ensures LastSlash(ModulePart(moduleName) + date) == if moduleName == "" then None else Some(|moduleName|)
  {
    DigitsHaveNoSlash(date);
    if moduleName == "" {
      assert ModulePart(moduleName) + date == date;
    } else {
      LastSlashAt(moduleName, date);
    }
  }

  /** The save path text is the base root followed by the path relative to it. */
  lemma SavePathBelowBase(base: string, project: string, moduleName: string, hour: Hour, name: string)
    ensures SavePath(base, project, moduleName, hour, name)
         == base + (project + "/" + ModulePart(moduleName) + Format(hour) + name)
  {
  }

  /** The save path, grouped by the slashes that separate its pieces. */
  lemma SavePathShape(base: string, project: string, moduleName: string, hour: Hour, name: string)
    ensures SavePath(base, project, moduleName, hour, name)
         == base + (project + "/" + ((ModulePart(moduleName) + DatePart(hour) + "/" + HourPart(hour)) + "/" + name))
  {
  }

  /**
   * Distinct uploads get distinct save paths: when project, module and file
   * name hold no slash, the save path determines all of them and the hour.
   */
  lemma SavePathInjective(base: string, project: string, moduleName: string, hour: Hour, name: string,
                          project': string, moduleName': string, hour': Hour, name': string)
    requires '/' !in project && '/' !in moduleName && '/' !in name && Valid(hour)
    requires '/' !in project' && '/' !in moduleName' && '/' !in name' && Valid(hour')
    requires SavePath(base, project, moduleName, hour, name) == SavePath(base, project', moduleName', hour', name')
    ensures project == project' && moduleName == moduleName' && hour == hour' && name == name'
  {
    var d, h, d', h' := DatePart(hour), HourPart(hour), DatePart(hour'), HourPart(hour');
    var q := ModulePart(moduleName) + d;
    var q' := ModulePart(moduleName') + d';
    var rest := q + "/" + h + "/" + name;
    var rest' := q' + "/" + h' + "/" + name';
    var s := SavePath(base, project, moduleName, hour, name);
    SavePathShape(base, project, moduleName, hour, name);
    SavePathShape(base, project', moduleName', hour', name');
    assert project + "/" + rest == s[|base|..] == project' + "/" + rest';
    SplitFirst(project, rest, project', rest');
    SplitLast(q + "/" + h, name, q' + "/" + h', name');
    DigitsHaveNoSlash(h);
    DigitsHaveNoSlash(h');
    SplitLast(q, h, q', h');
    ModuleDateSlash(moduleName, d);
    ModuleDateSlash(moduleName', d');
    if moduleName == "" {
      assert q == d && q' == d';
    } else {
      assert q == moduleName + "/" + d && q' == moduleName' + "/" + d';
      DigitsHaveNoSlash(d);
      DigitsHaveNoSlash(d');
      SplitLast(moduleName, d, moduleName', d');
    }
    assert Format(hour) == d + "/" + h + "/" == Format(hour');
    FormatInjective(hour, hour');
  }

  /**
   * The no-slash hypothesis of SavePathInjective is needed: a project with a
   * slash in it collides with a shorter project and a module.
   */
  lemma SlashProjectCollides(base: string, hour: Hour, name: string)
    ensures SavePath(base, "a/b", "", hour, name) == SavePath(base, "a", "b", hour, name)
  {
  }

  /** Prefixes a piece of output to a formatting result. */
  function Prepend(p: string, r: Option<string>): Option<string>
  {
    match r
    case None => None
    case Some(t) => Some(p + t)
  }

  /**
   * Go's `fmt.Sprintf(format, arg)` with one string operand, for formats whose
   * only verbs are `%s` and `%%`. `used` says whether the operand was printed
   * already. The first `%s` prints the operand and a later one prints
   * "%!s(MISSING)"; `%%` prints one percent sign; a lone `%` at the end prints
   * "%!(NOVERB)"; an operand that no verb printed is reported at the end as
   * "%!(EXTRA string=...)". Any other verb, flag or width gives None: that part
   * of `fmt` is not modelled.
   */
  function Sprintf(format: string, arg: string, used: bool): (r: Option<string>)
    ensures '%' !in format ==> r == Some(format + if used then "" else "%!(EXTRA string=" + arg + ")")
    decreases |format|
  {
    var extra := if used then "" else "%!(EXTRA string=" + arg + ")";
    if format == [] then assert format + extra == extra; Some(extra)
    else if format[0] != '%' then
      assert '%' !in format ==> '%' !in format[1..] && [format[0]] + (format[1..] + extra) == format + extra by {
        assert format == [format[0]] + format[1..];
      }
      Prepend([format[0]], Sprintf(format[1..], arg, used))
    else if |format| == 1 then Some("%!(NOVERB)" + extra)
    else if format[1] == '%' then Prepend("%", Sprintf(format[2..], arg, used))
    else if format[1] == 's' then Prepend(if used then "%!s(MISSING)" else arg, Sprintf(format[2..], arg, true))
    else None
  }

  /** Text without a percent sign is copied to the output unchanged. */
  lemma {:induction false} SprintfPlain(p: string, rest: string, arg: string, used: bool)
    requires '%' !in p
    ensures Sprintf(p + rest, arg, used) == Prepend(p, Sprintf(rest, arg, used))
  {
    if p != [] {
      assert (p + rest)[0] == p[0] && (p + rest)[1..] == p[1..] + rest;
      SprintfPlain(p[1..], rest, arg, used);
      assert [p[0]] + p[1..] == p;
      match Sprintf(rest, arg, used)
      case None =>
      case Some(t) => assert [p[0]] + (p[1..] + t) == p + t;
    } else {
      assert p + rest == rest;
      match Sprintf(rest, arg, used)
      case None =>
      case Some(t) => assert "" + t == t;
    }
  }

  /**
   * The save path as oss.go and main.go assemble it:
   * `fmt.Sprintf(filePath + "%s", fileName)`, with the directory path,
   * which holds the client's project and module names, used as format text.
   */
  function SavePathAsWritten(base: string, project: string, moduleName: string, hour: Hour, name: string): (r: Option<string>)
    ensures r.None? ==> '%' in base || '%' in project || '%' in moduleName
  {
    var dir := DirPath(base, project, moduleName, hour);
    assert '%' !in base && '%' !in project && '%' !in moduleName ==> Sprintf(dir + "%s", name, false).Some? by {
      if '%' !in base && '%' !in project && '%' !in moduleName {
        FormatHasNoPercent(hour);
        assert '%' !in dir;
        SprintfPlain(dir, "%s", name, false);
      }
    }
    Sprintf(dir + "%s", name, false)
  }

  lemma FormatHasNoPercent(hour: Hour)
    ensures '%' !in Format(hour)
  {
    var f := Format(hour);
    forall i | 0 <= i < |f| ensures f[i] != '%' { assert IsDigit(f[i]) || f[i] == '/'; }
  }

  /** Without a percent sign in the client's names, the code as written builds the intended save path. */
  lemma SavePathAsWrittenAgrees(base: string, project: string, moduleName: string, hour: Hour, name: string)
    requires '%' !in base && '%' !in project && '%' !in moduleName
    ensures SavePathAsWritten(base, project, moduleName, hour, name) == Some(SavePath(base, project, moduleName, hour, name))
  {
    var dir := DirPath(base, project, moduleName, hour);
    FormatHasNoPercent(hour);
    assert '%' !in dir;
    SprintfPlain(dir, "%s", name, false);
    assert Sprintf("%s", name, false) == Prepend(name, Sprintf("", name, true));
    assert name + "" == name;
  }

  /**
   * A project named "%%" sends the file elsewhere: the code as written saves
   * it under the directory of project "%", not under the directory "%%" it
   * just created, so the save path no longer extends the directory path.
   */
  lemma PercentProjectMovesSavePath(base: string, hour: Hour, name: string)
    requires '%' !in base
    ensures SavePathAsWritten(base, "%%", "", hour, name) == Some(base + "%/" + Format(hour) + name)
    ensures SavePathAsWritten(base, "%%", "", hour, name) != Some(SavePath(base, "%%", "", hour, name))
  {
    var f := Format(hour);
    FormatHasNoPercent(hour);
    var tail := "/" + f;
    assert '%' !in tail;
    var fmt := DirPath(base, "%%", "", hour) + "%s";
    assert fmt == base + ("%%" + (tail + "%s"));
    SprintfPlain(base, "%%" + (tail + "%s"), name, false);
    var t := "%%" + (tail + "%s");
    assert t[0] == '%' && t[1] == '%' && t[2..] == tail + "%s";
    SprintfPlain(tail, "%s", name, false);
    assert Sprintf("%s", name, false) == Prepend(name, Sprintf("", name, true));
    assert base + ("%" + (tail + (name + ""))) == base + "%/" + f + name;
    assert |base + "%/" + f + name| + 1 == |SavePath(base, "%%", "", hour, name)|;
  }
}

=== FILE: oss_indexed.dfy ===
/**
 * The indexed gateway of oss.go. An upload is placed in the time-bucketed
 * storage tree, written to disk and committed to a key-value index (leveldb
 * in the source, a map here) under a short key that the key generator
 * checked to be absent. A download strips the route from the request URI and
 * looks the key up. SyncFileIndex lists the storage tree and adds every file
 * under a new key.
 */
module OssIndexed {
  import opened Wrappers
  import opened Text
  import opened TimeLayout
  import opened Utils
  import Layout

  const BaseStoragePath := "/home/oss/storage/"
  const DownloadRoute := "/oss/api/v1/download/"

  /** The record stored for an upload; `size` is the request's Content-Length. */
  datatype FileInfo = FileInfo(name: string, reName: string, path: string, md5: string, size: int, timeStamp: int)

  /** An index value: the JSON of a FileInfo written by uploads, or a bare path written by SyncFileIndex. */
  datatype Entry = Record(info: FileInfo) | RawPath(path: string)

  /** The uploaded file part: its client-side name and its bytes. */
  datatype Upload = Upload(fileName: string, content: seq<Byte>)

  /**
   * What the upload handler reads from the request: the method, the form
   * values, whether the multipart form could be parsed, the Content-Length
   * and the file part, if there is one.
   */
  datatype Request = Request(isPost: bool, project: string, moduleName: string, formParsed: bool,
                             contentLength: int, file: Option<Upload>)

  /** The configured rename flag and size limit. */
  datatype Config = Config(rename: bool, maxFileSize: int)

  /** What the filesystem does with the new file: fail to create it, or fail after `copied` bytes. */
  datatype IoFault = NoFault | CreateFails | CopyFails(copied: nat)

  /**
   * The results of the foreign calls one upload makes: the calendar fields
   * of the current hour, the MD5 digest of the GetUUID text used for
   * renaming, the filesystem's behaviour and the clock in milliseconds.
   */
  datatype Env = Env(hour: Hour, nameDigest: Digest, fault: IoFault, nowMillis: int)

  /** One constructor per error message of the two handlers. */
  datatype Failure =
    | EmptyProject | FormUnreadable | TooLarge | NoFile | DuplicateName | CreateFailed | WriteFailed
    | LookupFailed | InfoUnreadable | OpenFailed

  /** The handler's answer: nothing for a method other than POST, an error message, or the new key. */
  datatype Reply = Silent | Fail(failure: Failure) | Ok(key: string)

  /**
   * The index and the stored files, keyed by path text, path to content. A
   * key is the path as the handler spelled it; a `..` in the client's project
   * or module makes it name a file outside the storage root.
   */
  datatype State = State(index: map<string, Entry>, disk: map<string, seq<Byte>>)

  /**
   * The short-key generator, seeded with the save path; its callback sees the
   * index, so it is a function of the keys present. A random generator is one
   * such function per call.
   */
  type KeyGen = (string, set<string>) -> string

  /** The generator's contract: it only returns a key its callback found absent. */
  ghost predicate GenFresh(gen: KeyGen)
  {
    forall seed, taken :: gen(seed, taken) !in taken
  }

  /** Every uploaded record points at a file on disk whose MD5 is the recorded one. */
  ghost predicate Backed(s: State, hash: seq<Byte> -> Digest)
  {
    forall k :: k in s.index && s.index[k].Record? ==>
      s.index[k].info.path in s.disk && s.index[k].info.md5 == HexDigest(hash(s.disk[s.index[k].info.path]))
  }

  /**
   * The stored file name: the uploaded name as given, or with renaming on the
   * hex MD5 of a fresh UUID followed by the uploaded name's extension.
   */
  function StoredName(rename: bool, uploaded: string, nameDigest: Digest): (r: string)
    ensures !rename ==> r == uploaded
    ensures rename ==> |r| == 32 + |Ext(uploaded)| && r[32..] == Ext(uploaded)
    ensures rename ==> forall i :: 0 <= i < 32 ==> IsLowerHex(r[i])
  {
    if rename then HexDigest(nameDigest) + Ext(uploaded) else uploaded
  }

  /** Renamed files with different UUID digests never share a name, whatever they were called. */
  lemma RenamedNamesDiffer(u1: string, d1: Digest, u2: string, d2: Digest)
    requires d1 != d2
    ensures StoredName(true, u1, d1) != StoredName(true, u2, d2)
  {
    assert StoredName(true, u1, d1)[..32] == HexDigest(d1);
    assert StoredName(true, u2, d2)[..32] == HexDigest(d2);
  }

  /** Where an accepted upload goes. */
  datatype Placement = Placement(fileName: string, dirPath: string, savePath: string)

  /**
   * The checks of the upload handler up to the point where the save path is
   * known, in the source's order, and the save path itself.
   */
  function Plan(req: Request, cfg: Config, hour: Hour, nameDigest: Digest): (r: Result<Placement, Failure>)
    ensures r.Success? <==>
      req.project != "" && req.formParsed && req.contentLength <= cfg.maxFileSize && req.file.Some?
    ensures req.project == "" ==> r == Failure(EmptyProject)
    ensures req.project != "" && req.formParsed && req.contentLength > cfg.maxFileSize ==> r == Failure(TooLarge)
    ensures r.Success? ==> r.value.fileName == StoredName(cfg.rename, req.file.value.fileName, nameDigest)
    ensures r.Success? ==>
      r.value.dirPath == BaseStoragePath + req.project + "/" + Layout.ModulePart(req.moduleName) + Format(hour)
    ensures r.Success? ==> r.value.savePath == r.value.dirPath + r.value.fileName
  {
    if req.project == "" then Failure(EmptyProject)
    else if !req.formParsed then Failure(FormUnreadable)
    else if req.contentLength > cfg.maxFileSize then Failure(TooLarge)
    else if req.file.None? then Failure(NoFile)
    else
      var name := StoredName(cfg.rename, req.file.value.fileName, nameDigest);
      Success(Placement(name, Layout.DirPath(BaseStoragePath, req.project, req.moduleName, hour),
                        Layout.SavePath(BaseStoragePath, req.project, req.moduleName, hour, name)))
  }

  /** The first `n` bytes of `content`, or all of it. */
  function Written(content: seq<Byte>, n: nat): seq<Byte>
  {
    if n < |content| then content[..n] else content
  }

  /** The record an accepted upload commits. */
  function NewRecord(upload: Upload, p: Placement, hash: seq<Byte> -> Digest, size: int, nowMillis: int): (r: FileInfo)
    ensures r.name == upload.fileName && r.reName == p.fileName && r.path == p.savePath
    ensures |r.md5| == 32 && HexDecode(r.md5) == Some(hash(upload.content))
  {
    FileInfo(upload.fileName, p.fileName, p.savePath, HexDigest(hash(upload.content)), size, nowMillis)
  }

  /** The whole effect of one upload request on the index and the disk, and the reply. */
  function UploadEffect(s: State, hash: seq<Byte> -> Digest, req: Request, cfg: Config, env: Env, gen: KeyGen): (r: (State, Reply))
    ensures !req.isPost ==> r == (s, Silent)
    ensures req.isPost && req.project == "" ==> r == (s, Fail(EmptyProject))
    ensures req.isPost && req.contentLength > cfg.maxFileSize ==> r.0 == s && r.1.Fail?
    ensures (req.isPost && Plan(req, cfg, env.hour, env.nameDigest).Success? &&
             Plan(req, cfg, env.hour, env.nameDigest).value.savePath in s.disk) ==> r == (s, Fail(DuplicateName))
    ensures !r.1.Ok? ==> r.0.index == s.index
    ensures r.1.Ok? ==> req.isPost && Plan(req, cfg, env.hour, env.nameDigest).Success? && env.fault == NoFault
    ensures (req.isPost && Plan(req, cfg, env.hour, env.nameDigest).Success? &&
             Plan(req, cfg, env.hour, env.nameDigest).value.savePath !in s.disk && env.fault == NoFault) ==> r.1.Ok?
    ensures r.1.Ok? ==>
      r.0.disk == s.disk[Plan(req, cfg, env.hour, env.nameDigest).value.savePath := req.file.value.content]
    ensures forall q :: q in s.disk ==> q in r.0.disk && r.0.disk[q] == s.disk[q]
    ensures r.0.disk.Keys - s.disk.Keys <= (if Plan(req, cfg, env.hour, env.nameDigest).Success?
                                          then {Plan(req, cfg, env.hour, env.nameDigest).value.savePath} else {})
  {
    if !req.isPost then (s, Silent)
    else match Plan(req, cfg, env.hour, env.nameDigest)
      case Failure(e) => (s, Fail(e))
      case Success(p) =>
        if p.savePath in s.disk then (s, Fail(DuplicateName))
        else
          var upload := req.file.value;
          match env.fault
          case CreateFails => (s, Fail(CreateFailed))
          case CopyFails(n) => (s.(disk := s.disk[p.savePath := Written(upload.content, n)]), Fail(WriteFailed))
          case NoFault =>
            var key := gen(p.savePath, s.index.Keys);
            (State(s.index[key := Record(NewRecord(upload, p, hash, req.contentLength, env.nowMillis))],
                   s.disk[p.savePath := upload.content]),
             Ok(key))
  }

  /**
   * A successful upload adds exactly one key, absent before, whose record
   * holds the save path, the uploaded and the stored name; every other entry
   * stays as it was.
   */
  lemma UploadCommitsOneKey(s: State, hash: seq<Byte> -> Digest, req: Request, cfg: Config, env: Env, gen: KeyGen)
    requires GenFresh(gen)
    requires UploadEffect(s, hash, req, cfg, env, gen).1.Ok?
    ensures var (s', reply) := UploadEffect(s, hash, req, cfg, env, gen);
            var p := Plan(req, cfg, env.hour, env.nameDigest).value;
            && reply.key !in s.index
            && s'.index == s.index[reply.key := Record(NewRecord(req.file.value, p, hash, req.contentLength, env.nowMillis))]
            && |s'.index| == |s.index| + 1
            && s'.index[reply.key].info.path == p.savePath
            && s'.index[reply.key].info.name == req.file.value.fileName
            && s'.index[reply.key].info.reName == p.fileName
            && forall k :: k in s.index ==> k in s'.index && s'.index[k] == s.index[k]
  {
    var p := Plan(req, cfg, env.hour, env.nameDigest).value;
    assert gen(p.savePath, s.index.Keys) !in s.index.Keys;
  }

  /** Uploads keep every record backed by its file and its checksum. */
  lemma UploadKeepsBacked(s: State, hash: seq<Byte> -> Digest, req: Request, cfg: Config, env: Env, gen: KeyGen)
    requires Backed(s, hash)
    ensures Backed(UploadEffect(s, hash, req, cfg, env, gen).0, hash)
  {
    var s' := UploadEffect(s, hash, req, cfg, env, gen).0;
    if req.isPost && Plan(req, cfg, env.hour, env.nameDigest).Success? {
      var p := Plan(req, cfg, env.hour, env.nameDigest).value;
      if p.savePath !in s.disk {
        forall k | k in s'.index && s'.index[k].Record?
          ensures s'.index[k].info.path in s'.disk
          ensures s'.index[k].info.md5 == HexDigest(hash(s'.disk[s'.index[k].info.path]))
        {
          if k in s.index && s'.index[k] == s.index[k] {
            assert s.index[k].info.path in s.disk;
          }
        }
      }
    }
  }

  /** A second upload of the same name to the same project, module and hour is refused, with no change. */
  lemma SameNameConflicts(s: State, hash: seq<Byte> -> Digest, req: Request, cfg: Config, env: Env, gen: KeyGen,
                          req2: Request, env2: Env, gen2: KeyGen)
    requires !cfg.rename
    requires UploadEffect(s, hash, req, cfg, env, gen).1.Ok?
    requires req2.isPost && Plan(req2, cfg, env2.hour, env2.nameDigest).Success?
    requires req2.project == req.project && req2.moduleName == req.moduleName && env2.hour == env.hour
    requires req2.file.value.fileName == req.file.value.fileName
    ensures var s1 := UploadEffect(s, hash, req, cfg, env, gen).0;
            UploadEffect(s1, hash, req2, cfg, env2, gen2) == (s1, Fail(DuplicateName))
  {
    var s1 := UploadEffect(s, hash, req, cfg, env, gen).0;
    var p := Plan(req, cfg, env.hour, env.nameDigest).value;
    assert Plan(req2, cfg, env2.hour, env2.nameDigest).value.savePath == p.savePath;
    assert p.savePath in s1.disk;
  }

  /** The download key: the request URI with the first occurrence of the download route removed. */
  function DownloadKey(uri: string): (key: string)
    ensures StartsWith(uri, DownloadRoute) ==> key == uri[|DownloadRoute|..]
    ensures (forall j: nat :: !OccursAt(uri, DownloadRoute, j)) ==> key == uri
    ensures forall i: nat :: OccursAt(uri, DownloadRoute, i) && (forall j: nat :: j < i ==> !OccursAt(uri, DownloadRoute, j)) ==>
      key == uri[..i] + uri[i + |DownloadRoute|..]
  {
    ReplaceFirst(uri, DownloadRoute, "")
  }

  /** What a successful download serves: the decoded record and the bytes of its file. */
  datatype Delivery = Delivery(info: FileInfo, content: seq<Byte>)

  /**
   * The download handler up to the stream copy: look the key up, decode the
   * record, open the file.
   */
  function Download(s: State, uri: string): (r: Result<Delivery, Failure>)
    ensures DownloadKey(uri) !in s.index ==> r == Failure(LookupFailed)
    ensures r.Success? <==> DownloadKey(uri) in s.index && s.index[DownloadKey(uri)].Record?
                            && s.index[DownloadKey(uri)].info.path in s.disk
    ensures r.Success? ==>
      r.value.info == s.index[DownloadKey(uri)].info && r.value.content == s.disk[r.value.info.path]
  {
    var key := DownloadKey(uri);
    if key !in s.index then Failure(LookupFailed)
    else match s.index[key]
      // A bare path is never a JSON record: every path the walk of the storage
      // root reports starts with '/', which the JSON decoder rejects. Values
      // such as `null` or `{}` would decode, but no such path is ever written.
      case RawPath(_) => Failure(InfoUnreadable)
      case Record(info) =>
        if info.path !in s.disk then Failure(OpenFailed)
        else Success(Delivery(info, s.disk[info.path]))
  }

  /** Downloading the key an upload returned serves exactly the uploaded bytes and the record written for them. */
  lemma UploadThenDownload(s: State, hash: seq<Byte> -> Digest, req: Request, cfg: Config, env: Env, gen: KeyGen)
    requires UploadEffect(s, hash, req, cfg, env, gen).1.Ok?
    ensures var (s', reply) := UploadEffect(s, hash, req, cfg, env, gen);
            var p := Plan(req, cfg, env.hour, env.nameDigest).value;
            Download(s', DownloadRoute + reply.key)
              == Success(Delivery(NewRecord(req.file.value, p, hash, req.contentLength, env.nowMillis), req.file.value.content))
  {
    var key := UploadEffect(s, hash, req, cfg, env, gen).1.key;
    ReplaceFirstOfPrefix(DownloadRoute, key, "");
    assert DownloadKey(DownloadRoute + key) == key;
  }

  /** The index after SyncFileIndex has added `paths` one by one, each under the generator's key. */
  function Reindexed(index: map<string, Entry>, paths: seq<string>, gen: KeyGen): map<string, Entry>
    decreases |paths|
  {
    if paths == [] then index
    else Reindexed(index[gen(paths[0], index.Keys) := RawPath(paths[0])], paths[1..], gen)
  }

  /** Reindexing keeps every existing entry and grows the index by one key per listed file. */
  lemma {:induction false} ReindexGrows(index: map<string, Entry>, paths: seq<string>, gen: KeyGen)
    requires GenFresh(gen)
    ensures |Reindexed(index, paths, gen)| == |index| + |paths|
    ensures forall k :: k in index ==> k in Reindexed(index, paths, gen) && Reindexed(index, paths, gen)[k] == index[k]
    decreases |paths|
  {
    if paths != [] {
      var k := gen(paths[0], index.Keys);
      assert k !in index.Keys;
      ReindexGrows(index[k := RawPath(paths[0])], paths[1..], gen);
    }
  }

  /** Every listed file is reachable afterwards through a key that was not in the index before. */
  lemma {:induction false} ReindexCoversFiles(index: map<string, Entry>, paths: seq<string>, gen: KeyGen)
    requires GenFresh(gen)
    ensures forall i :: 0 <= i < |paths| ==>
      exists k :: k !in index && k in Reindexed(index, paths, gen) && Reindexed(index, paths, gen)[k] == RawPath(paths[i])
    decreases |paths|
  {
    if paths != [] {
      var k0 := gen(paths[0], index.Keys);
      assert k0 !in index.Keys;
      var index' := index[k0 := RawPath(paths[0])];
      var r := Reindexed(index, paths, gen);
      assert r == Reindexed(index', paths[1..], gen);
      ReindexGrows(index', paths[1..], gen);
      ReindexCoversFiles(index', paths[1..], gen);
      forall i | 0 <= i < |paths|
        ensures exists k :: k !in index && k in r && r[k] == RawPath(paths[i])
      {
        if i == 0 {
          assert k0 in r && r[k0] == RawPath(paths[0]);
        } else {
          assert paths[i] == paths[1..][i - 1];
          var k :| k !in index' && k in r && r[k] == RawPath(paths[1..][i - 1]);
          assert k !in index;
        }
      }
    }
  }

  /**
   * Reindexing is not idempotent: a second run over the same files adds
   * another key for each of them, so a file ends up under two keys.
   */
  lemma ReindexTwice(index: map<string, Entry>, paths: seq<string>, gen: KeyGen)
    requires GenFresh(gen) && |paths| > 0
    ensures var once := Reindexed(index, paths, gen);
            var twice := Reindexed(once, paths, gen);
            && |twice| == |once| + |paths|
            && exists k1, k2 :: k1 != k2 && k1 in twice && k2 in twice
                                && twice[k1] == RawPath(paths[0]) && twice[k2] == RawPath(paths[0])
  {
    var once := Reindexed(index, paths, gen);
    var twice := Reindexed(once, paths, gen);
    ReindexCoversFiles(index, paths, gen);
    var k1 :| k1 !in index && k1 in once && once[k1] == RawPath(paths[0]);
    ReindexGrows(once, paths, gen);
    ReindexCoversFiles(once, paths, gen);
    var k2 :| k2 !in once && k2 in twice && twice[k2] == RawPath(paths[0]);
    assert twice[k1] == RawPath(paths[0]);
  }

  /** Reindexing writes no record, so every record stays backed. */
  lemma {:induction false} ReindexKeepsBacked(s: State, paths: seq<string>, gen: KeyGen, hash: seq<Byte> -> Digest)
    requires Backed(s, hash)
    ensures Backed(State(Reindexed(s.index, paths, gen), s.disk), hash)
    decreases |paths|
  {
    if paths != [] {
      var s' := s.(index := s.index[gen(paths[0], s.index.Keys) := RawPath(paths[0])]);
      assert Backed(s', hash);
      ReindexKeepsBacked(s', paths[1..], gen, hash);
    }
  }

  /**
   * Keys added by SyncFileIndex cannot be downloaded: their value is a bare
   * path, which the download handler fails to decode as a record.
   */
  lemma ReindexedKeysUnreadable(s: State, paths: seq<string>, gen: KeyGen, k: string)
    requires GenFresh(gen)
    requires k in Reindexed(s.index, paths, gen) && k !in s.index
    ensures Download(State(Reindexed(s.index, paths, gen), s.disk), DownloadRoute + k) == Failure(InfoUnreadable)
  {
    ReindexAddsRawPaths(s.index, paths, gen);
    ReplaceFirstOfPrefix(DownloadRoute, k, "");
  }

  /** The keys reindexing adds hold bare paths of listed files. */
  lemma {:induction false} ReindexAddsRawPaths(index: map<string, Entry>, paths: seq<string>, gen: KeyGen)
    requires GenFresh(gen)
    ensures forall k :: k in Reindexed(index, paths, gen) && k !in index ==>
      Reindexed(index, paths, gen)[k].RawPath? && Reindexed(index, paths, gen)[k].path in paths
    decreases |paths|
  {
    if paths != [] {
      var k0 := gen(paths[0], index.Keys);
      var index' := index[k0 := RawPath(paths[0])];
      ReindexAddsRawPaths(index', paths[1..], gen);
      ReindexGrows(index', paths[1..], gen);
      var r := Reindexed(index, paths, gen);
      forall k | k in r && k !in index ensures r[k].RawPath? && r[k].path in paths {
        if k == k0 {
          assert r[k] == index'[k0];
        } else {
          assert r[k].path in paths[1..];
        }
      }
    }
  }

  /** The gateway's persistent state: the index and the storage tree. */
  class Gateway {
    var index: map<string, Entry>
    var disk: map<string, seq<Byte>>
    /** The MD5 function `GetFileMd5` applies to a stored file. */
    const hash: seq<Byte> -> Digest

    /**
     * Every record points at a stored file with the recorded MD5. The index
     * opened at start-up need not be consistent (files can have been removed
     * behind its back), so this is not a class invariant: the handlers keep it
     * when it holds.
     */
    ghost predicate Consistent()
      reads this
    {
      Backed(State(index, disk), hash)
    }

    /** Opening the gateway over whatever index and storage tree are on disk. */
    constructor (hash: seq<Byte> -> Digest, index: map<string, Entry>, disk: map<string, seq<Byte>>)
      ensures this.hash == hash && this.index == index && this.disk == disk
    {
      this.hash := hash;
      this.index := index;
      this.disk := disk;
    }

    /** `UploadHandler`: the checks, the file write and the index commit. */
    method Upload(req: Request, cfg: Config, env: Env, gen: KeyGen) returns (reply: Reply)
      modifies this
      ensures old(Consistent()) ==> Consistent()
      ensures (State(index, disk), reply) == UploadEffect(State(old(index), old(disk)), hash, req, cfg, env, gen)
    {
      ghost var consistent := Consistent();
      if consistent {
        UploadKeepsBacked(State(index, disk), hash, req, cfg, env, gen);
      }
      if !req.isPost {
        return Silent;
      }
      var plan := Plan(req, cfg, env.hour, env.nameDigest);
      if plan.Failure? {
        return Fail(plan.error);
      }
      var p := plan.value;
      if p.savePath in disk {
        return Fail(DuplicateName);
      }
      var upload := req.file.value;
      match env.fault {
        case CreateFails =>
          return Fail(CreateFailed);
        case CopyFails(n) =>
          disk := disk[p.savePath := Written(upload.content, n)];
          return Fail(WriteFailed);
        case NoFault =>
      }
      disk := disk[p.savePath := upload.content];
      var info := FileInfo(upload.fileName, p.fileName, p.savePath, HexDigest(hash(disk[p.savePath])),
                           req.contentLength, env.nowMillis);
      var key := gen(p.savePath, index.Keys);
      index := index[key := Record(info)];
      reply := Ok(key);
    }

    /** `SyncFileIndex`: every file the walk lists goes into the index under a new key. */
    method SyncFileIndex(walk: seq<WalkEntry>, gen: KeyGen)
      modifies this
      ensures old(Consistent()) ==> Consistent()
      ensures disk == old(disk)
      ensures index == Reindexed(old(index), Files(walk), gen)
    {
      var fileList := ListFile(walk);
      for i := 0 to |fileList|
        invariant disk == old(disk)
        invariant Reindexed(index, fileList[i..], gen) == Reindexed(old(index), fileList, gen)
        invariant old(Consistent()) ==> Consistent()
      {
        var savePath := fileList[i];
        var key := gen(savePath, index.Keys);
        assert fileList[i..][1..] == fileList[i + 1..];
        index := index[key := RawPath(savePath)];
      }
      assert fileList[|fileList|..] == [];
    }
  }
}

=== FILE: oss_plain.dfy ===
/**
 * The index-less gateway of main.go. An upload is written to the
 * time-bucketed path whose text starts with "/home/oss/" and answered with that path minus
 * the base root; a download puts the base root back in front of the request
 * URI with the download route taken out. There is no index, no size limit,
 * no renaming and no duplicate check.
 */
module OssPlain {
  import opened Wrappers
  import opened Text
  import opened TimeLayout
  import Layout

  const BaseFilePath := "/home/oss/"
  const DownloadRoute := "/oss/api/v1/download/"

  /** What the upload handler reads: the method, the form values and the file part's name, if there is a file part. */
  datatype Request = Request(isPost: bool, project: string, moduleName: string, fileName: Option<string>)

  /** What the filesystem does with the new file. */
  datatype IoFault = NoFault | CreateFails | CopyFails

  /** One constructor per error message of the upload handler. */
  datatype Failure = EmptyProject | NoFile | CreateFailed | WriteFailed

  /** The handler's answer: nothing for a method other than POST, an error message, or the stored path. */
  datatype Reply = Silent | Fail(failure: Failure) | Ok(path: string)

  /** The upload's answer: the save path with the first occurrence of the base root removed. */
  function RelativePath(savePath: string): (r: string)
    ensures StartsWith(savePath, BaseFilePath) ==> BaseFilePath + r == savePath
  {
    var r := ReplaceFirst(savePath, BaseFilePath, "");
    assert StartsWith(savePath, BaseFilePath) ==> BaseFilePath + r == savePath by {
      if StartsWith(savePath, BaseFilePath) {
        assert savePath == BaseFilePath + savePath[|BaseFilePath|..];
      }
    }
    r
  }

  /** `UploadHandler`: the checks, the save path and the answer. */
  function Upload(req: Request, hour: Hour, fault: IoFault): (r: Reply)
    ensures r == Silent <==> !req.isPost
    ensures req.isPost && req.project == "" ==> r == Fail(EmptyProject)
    ensures r.Ok? <==> req.isPost && req.project != "" && req.fileName.Some? && fault == NoFault
    ensures r.Ok? ==>
      r.path == req.project + "/" + Layout.ModulePart(req.moduleName) + Format(hour) + req.fileName.value
    ensures r.Ok? ==>
      BaseFilePath + r.path == Layout.SavePath(BaseFilePath, req.project, req.moduleName, hour, req.fileName.value)
  {
    if !req.isPost then Silent
    else if req.project == "" then Fail(EmptyProject)
    else if req.fileName.None? then Fail(NoFile)
    else
      var savePath := Layout.SavePath(BaseFilePath, req.project, req.moduleName, hour, req.fileName.value);
      match fault
      case CreateFails => Fail(CreateFailed)
      case CopyFails => Fail(WriteFailed)
      case NoFault =>
        var below := req.project + "/" + Layout.ModulePart(req.moduleName) + Format(hour) + req.fileName.value;
        Layout.SavePathBelowBase(BaseFilePath, req.project, req.moduleName, hour, req.fileName.value);
        StartsWithConcat(BaseFilePath, below);
        Ok(RelativePath(savePath))
  }

  /** `DownloadHandler`: the base root followed by the URI with the first occurrence of the route removed. */
  function DownloadPath(uri: string): (r: string)
    ensures StartsWith(uri, DownloadRoute) ==> r == BaseFilePath + uri[|DownloadRoute|..]
    ensures (forall j: nat :: !OccursAt(uri, DownloadRoute, j)) ==> r == BaseFilePath + uri
    ensures forall i: nat :: OccursAt(uri, DownloadRoute, i) && (forall j: nat :: j < i ==> !OccursAt(uri, DownloadRoute, j)) ==>
      r == BaseFilePath + uri[..i] + uri[i + |DownloadRoute|..]
  {
    RootedCut(BaseFilePath, uri, DownloadRoute);
    BaseFilePath + ReplaceFirst(uri, DownloadRoute, "")
  }

  /** Requesting the route followed by the path an upload answered opens exactly the file that upload wrote. */
  lemma UploadDownloadRoundTrip(req: Request, hour: Hour, fault: IoFault)
    requires req.isPost && req.project != "" && req.fileName.Some? && fault == NoFault
    ensures Upload(req, hour, fault).Ok?
    ensures DownloadPath(DownloadRoute + Upload(req, hour, fault).path)
         == Layout.SavePath(BaseFilePath, req.project, req.moduleName, hour, req.fileName.value)
  {
    ReplaceFirstOfPrefix(DownloadRoute, Upload(req, hour, fault).path, "");
  }
}

=== FILE: text.dfy ===
/**
 * The string operations of Go's standard library that the gateway relies on,
 * stated over Dafny strings: `strings.Replace` with a count of one (first
 * occurrence) and with a count of -1 for one-character patterns, `path.Ext`,
 * and the removal of one character everywhere.
 */
module Text {
  import opened Wrappers

  /** `pat` occurs in `s` starting at index `i`. */
  predicate OccursAt(s: string, pat: string, i: nat)
  {
    i + |pat| <= |s| && s[i..i + |pat|] == pat
  }

  /** `pre` is a prefix of `s`. */
  predicate StartsWith(s: string, pre: string)
  {
    |pre| <= |s| && s[..|pre|] == pre
  }

  /** A string starts with any of its left pieces. */
  lemma StartsWithConcat(a: string, b: string)
    ensures StartsWith(a + b, a) && (a + b)[|a|..] == b
  {
    assert (a + b)[..|a|] == a;
  }

  /** The index of the first occurrence of `pat` in `s` at or after `from`, if any. */
  function FindFrom(s: string, pat: string, from: nat): (r: Option<nat>)
    ensures r.Some? ==> from <= r.value && OccursAt(s, pat, r.value)
    ensures r.Some? ==> forall j: nat :: from <= j < r.value ==> !OccursAt(s, pat, j)
    ensures r.None? ==> forall j: nat :: from <= j ==> !OccursAt(s, pat, j)
    decreases |s| - from
  {
    if |s| < from + |pat| then None
    else if OccursAt(s, pat, from) then Some(from)
    else FindFrom(s, pat, from + 1)
  }

  /**
   * `strings.Replace(s, pat, rep, 1)`: the first occurrence of `pat` is
   * replaced by `rep`; without an occurrence `s` comes back unchanged.
   */
  function ReplaceFirst(s: string, pat: string, rep: string): (r: string)
    ensures (forall j: nat :: !OccursAt(s, pat, j)) ==> r == s
    ensures StartsWith(s, pat) ==> r == rep + s[|pat|..]
    ensures forall i: nat :: OccursAt(s, pat, i) && (forall j: nat :: j < i ==> !OccursAt(s, pat, j)) ==>
      r == s[..i] + rep + s[i + |pat|..]
  {
    match FindFrom(s, pat, 0)
    case None => s
    case Some(i) => s[..i] + rep + s[i + |pat|..]
  }

  /** What cutting out the first occurrence of `pat` does behind a fixed root. */
  lemma RootedCut(root: string, s: string, pat: string)
    ensures StartsWith(s, pat) ==> root + ReplaceFirst(s, pat, "") == root + s[|pat|..]
    ensures (forall j: nat :: !OccursAt(s, pat, j)) ==> root + ReplaceFirst(s, pat, "") == root + s
    ensures forall i: nat :: OccursAt(s, pat, i) && (forall j: nat :: j < i ==> !OccursAt(s, pat, j)) ==>
      root + ReplaceFirst(s, pat, "") == root + s[..i] + s[i + |pat|..]
  {
    if StartsWith(s, pat) {
      assert "" + s[|pat|..] == s[|pat|..];
    }
    forall i: nat | OccursAt(s, pat, i) && (forall j: nat :: j < i ==> !OccursAt(s, pat, j))
      ensures root + ReplaceFirst(s, pat, "") == root + s[..i] + s[i + |pat|..]
    {
      assert s[..i] + "" + s[i + |pat|..] == s[..i] + s[i + |pat|..];
    }
  }

  /** Replacing the first occurrence of a prefix removes exactly that prefix. */
  lemma ReplaceFirstOfPrefix(pat: string, rest: string, rep: string)
    ensures ReplaceFirst(pat + rest, pat, rep) == rep + rest
  {
    assert (pat + rest)[..|pat|] == pat;
    assert (pat + rest)[|pat|..] == rest;
  }

  /** `strings.Replace(s, string(from), string(to), -1)` for a one-character pattern. */
  function ReplaceAll(s: string, from: char, to: char): (r: string)
    ensures |r| == |s|
    ensures forall i :: 0 <= i < |s| ==> r[i] == (if s[i] == from then to else s[i])
  {
    if s == [] then []
    else [if s[0] == from then to else s[0]] + ReplaceAll(s[1..], from, to)
  }

  /** Replacing a second time changes nothing. */
  lemma ReplaceAllIdempotent(s: string, from: char, to: char)
    ensures ReplaceAll(ReplaceAll(s, from, to), from, to) == ReplaceAll(s, from, to)
  {
    var r := ReplaceAll(s, from, to);
    var rr := ReplaceAll(r, from, to);
    assert |rr| == |r|;
    forall i | 0 <= i < |r| ensures rr[i] == r[i] {
      assert r[i] == (if s[i] == from then to else s[i]);
    }
  }

  /** `s` with every occurrence of `c` removed, as `strings.Replace(s, string(c), "", -1)`. */
  function Remove(s: string, c: char): (r: string)
    ensures c !in r
    ensures |r| <= |s|
  {
    if s == [] then []
    else if s[0] == c then Remove(s[1..], c)
    else [s[0]] + Remove(s[1..], c)
  }

  /** Removal distributes over concatenation. */
  lemma {:induction false} RemoveConcat(a: string, b: string, c: char)
    ensures Remove(a + b, c) == Remove(a, c) + Remove(b, c)
  {
    if a != [] {
      assert (a + b)[1..] == a[1..] + b;
      RemoveConcat(a[1..], b, c);
    } else {
      assert a + b == b;
    }
  }

  /** Removing a character that does not occur changes nothing. */
  lemma {:induction false} RemoveAbsent(s: string, c: char)
    requires c !in s
    ensures Remove(s, c) == s
  {
    if s != [] {
      assert s == [s[0]] + s[1..];
      RemoveAbsent(s[1..], c);
    }
  }

  /**
   * Scan of `path.Ext`: `p[n..]` holds neither a slash nor a dot, and the
   * scan looks at `p[n - 1]` next, moving towards the front.
   */
  function ExtBefore(p: string, n: nat): (r: string)
    requires n <= |p|
    requires forall i :: n <= i < |p| ==> p[i] != '/' && p[i] != '.'
    ensures r != "" ==> 0 < |r| <= |p| && r == p[|p| - |r|..] && r[0] == '.'
    ensures forall i :: 0 <= i < |r| ==> r[i] != '/'
    ensures forall i :: 1 <= i < |r| ==> r[i] != '.'
    ensures r == "" ==> forall i :: 0 <= i < n && p[i] == '.' ==> exists j :: i < j < n && p[j] == '/'
    decreases n
  {
    if n == 0 || p[n - 1] == '/' then ""
    else if p[n - 1] == '.' then p[n - 1..]
    else ExtBefore(p, n - 1)
  }

  /**
   * `path.Ext`: the suffix of `p` that starts at the last dot of its last
   * slash-separated element, or "" when that element has no dot.
   */
  function Ext(p: string): (r: string)
    ensures r != "" ==> 0 < |r| <= |p| && r == p[|p| - |r|..] && r[0] == '.'
    ensures forall i :: 0 <= i < |r| ==> r[i] != '/'
    ensures forall i :: 1 <= i < |r| ==> r[i] != '.'
    ensures r == "" <==> forall i :: 0 <= i < |p| && p[i] == '.' ==> exists j :: i < j < |p| && p[j] == '/'
  {
    var r := ExtBefore(p, |p|);
    assert r != "" ==> !forall i :: 0 <= i < |p| && p[i] == '.' ==> exists j :: i < j < |p| && p[j] == '/' by {
      if r != "" {
        var k := |p| - |r|;
        assert p[k] == '.';
        forall j | k < j < |p| ensures p[j] != '/' {
          assert p[j] == r[j - k];
        }
      }
    }
    r
  }
}

=== FILE: timelayout.dfy ===
/**
 * Go's time layout "20060102/15/" applied to the calendar fields of the
 * upload time: a four-digit year, two-digit month and day, a slash, the
 * two-digit hour and a trailing slash. This is the hour bucket of every
 * storage path.
 */
module TimeLayout {
  import opened Wrappers

  /** The calendar fields of the upload time, already in the server's time zone. */
  datatype Hour = Hour(year: nat, month: nat, day: nat, hour: nat)

  /** Fields a clock can produce, with a year that fits the four-digit layout. */
  predicate Valid(h: Hour)
  {
    h.year < 10000 && 1 <= h.month <= 12 && 1 <= h.day <= 31 && h.hour < 24
  }

  predicate IsDigit(c: char)
  {
    '0' <= c <= '9'
  }

  predicate AllDigits(s: string)
  {
    forall i :: 0 <= i < |s| ==> IsDigit(s[i])
  }

  function Digit(d: nat): (c: char)
    requires d < 10
    ensures IsDigit(c) && c as int - '0' as int == d
  {
    (('0' as int) + d) as char
  }

  function Zeros(k: nat): (r: string)
    ensures |r| == k && AllDigits(r)
  {
    seq(k, _ => '0')
  }

  function Pow10(w: nat): nat
  {
    if w == 0 then 1 else 10 * Pow10(w - 1)
  }

  /** The number a string of decimal digits denotes (the empty string denotes 0). */
  function Value(s: string): nat
    requires AllDigits(s)
  {
    if s == [] then 0 else Value(s[..|s| - 1]) * 10 + (s[|s| - 1] as int - '0' as int)
  }

  /** The decimal digits of `n`, without leading zeros. */
  function Decimal(n: nat): (r: string)
    ensures 1 <= |r| && AllDigits(r)
  {
    if n < 10 then [Digit(n)] else Decimal(n / 10) + [Digit(n % 10)]
  }

  lemma {:induction false} ValueOfDecimal(n: nat)
    ensures Value(Decimal(n)) == n
  {
    var d := Decimal(n);
    if n >= 10 {
      ValueOfDecimal(n / 10);
      assert d[..|d| - 1] == Decimal(n / 10);
    } else {
      assert d[..0] == [];
    }
  }

  lemma {:induction false} DecimalLength(n: nat, w: nat)
    requires 1 <= w && n < Pow10(w)
    ensures |Decimal(n)| <= w
  {
    if n >= 10 && w > 1 {
      DecimalLength(n / 10, w - 1);
    }
  }

  lemma {:induction false} ValueLeadingZeros(k: nat, d: string)
    requires AllDigits(d)
    ensures Value(Zeros(k) + d) == Value(d)
    decreases |d| + k
  {
    var s := Zeros(k) + d;
    if d == [] {
      assert s == Zeros(k);
      if k > 0 {
        assert s[..|s| - 1] == Zeros(k - 1) + [];
        ValueLeadingZeros(k - 1, []);
      }
    } else {
      assert s[..|s| - 1] == Zeros(k) + d[..|d| - 1];
      ValueLeadingZeros(k, d[..|d| - 1]);
    }
  }

  /**
   * Go's zero-padded integer field: `n` in decimal with leading zeros up to
   * `width` digits, and all of its digits when it needs more.
   */
  function Pad(n: nat, width: nat): (r: string)
    ensures AllDigits(r) && Value(r) == n
    ensures 1 <= width && n < Pow10(width) ==> |r| == width
  {
    var d := Decimal(n);
    ValueOfDecimal(n);
    assert 1 <= width && n < Pow10(width) ==> |d| <= width by {
      if 1 <= width && n < Pow10(width) { DecimalLength(n, width); }
    }
    if |d| < width then
      ValueLeadingZeros(width - |d|, d);
      Zeros(width - |d|) + d
    else d
  }

  /** The "20060102" part of the layout. */
  function DatePart(h: Hour): string
  {
    Pad(h.year, 4) + Pad(h.month, 2) + Pad(h.day, 2)
  }

  /** The "15" part of the layout. */
  function HourPart(h: Hour): string
  {
    Pad(h.hour, 2)
  }

  /** `time.Format("20060102/15/")`: the hour bucket of a storage path. */
  function Format(h: Hour): (r: string)
    ensures forall i :: 0 <= i < |r| ==> IsDigit(r[i]) || r[i] == '/'
    ensures Valid(h) ==> |r| == 12 && r[8] == '/' && r[11] == '/'
    ensures Valid(h) ==> forall i :: 0 <= i < 12 && i != 8 && i != 11 ==> IsDigit(r[i])
  {
    assert Pow10(2) == 100 && Pow10(4) == 10000;
    DatePart(h) + "/" + HourPart(h) + "/"
  }

  /** Reads the calendar fields back from a formatted hour bucket. */
  function Parse(s: string): (r: Option<Hour>)
    ensures r.Some? ==> |s| == 12 && s[8] == '/' && s[11] == '/'
  {
    if |s| == 12 && s[8] == '/' && s[11] == '/' && AllDigits(s[..8]) && AllDigits(s[9..11]) then
      assert AllDigits(s[..4]) && AllDigits(s[4..6]) && AllDigits(s[6..8]) by {
        assert s[..4] == s[..8][..4] && s[4..6] == s[..8][4..6] && s[6..8] == s[..8][6..];
      }
      Some(Hour(Value(s[..4]), Value(s[4..6]), Value(s[6..8]), Value(s[9..11])))
    else None
  }

  /** Parsing undoes formatting, so an hour bucket determines its calendar fields. */
  lemma ParseFormat(h: Hour)
    requires Valid(h)
    ensures Parse(Format(h)) == Some(h)
  {
    assert Pow10(2) == 100 && Pow10(4) == 10000;
    var y, m, d, hh := Pad(h.year, 4), Pad(h.month, 2), Pad(h.day, 2), Pad(h.hour, 2);
    var s := Format(h);
    assert s == y + m + d + "/" + hh + "/";
    assert s[..4] == y && s[4..6] == m && s[6..8] == d && s[9..11] == hh;
  }

  /** Distinct valid hours land in distinct buckets. */
  lemma FormatInjective(h1: Hour, h2: Hour)
    requires Valid(h1) && Valid(h2) && Format(h1) == Format(h2)
    ensures h1 == h2
  {
    ParseFormat(h1);
    ParseFormat(h2);
  }

  /** The bucket of 1 May 2024, 10 o'clock. */
  lemma FormatExample()
    ensures Format(Hour(2024, 5, 1, 10)) == "20240501/10/"
  {
    assert Pow10(2) == 100 && Pow10(4) == 10000;
    assert Decimal(2024) == "2024";
  }
}

=== FILE: utils.dfy ===
/**
 * The helpers of utils/utils.go: hex output of an MD5 digest, the dashed
 * layout of GetUUID and the file listing of ListFile. The digests and the
 * directory walk are produced by foreign code and enter as values.
 */
module Utils {
  import opened Wrappers
  import opened Text

  type Byte = b: int | 0 <= b < 256

  /** A 128-bit MD5 digest. */
  type Digest = d: seq<Byte> | |d| == 16 witness [0, 0, 0, 0, 0, 0, 0, 0, 0, 0, 0, 0, 0, 0, 0, 0]

  predicate IsLowerHex(c: char)
  {
    '0' <= c <= '9' || 'a' <= c <= 'f'
  }

  /** The lowercase hex digit of a value below 16. */
  function HexChar(v: nat): (c: char)
    requires v < 16
    ensures IsLowerHex(c)
  {
    if v < 10 then ('0' as int + v) as char else ('a' as int + v - 10) as char
  }

  function HexValue(c: char): (v: nat)
    requires IsLowerHex(c)
    ensures v < 16 && HexChar(v) == c
  {
    if c <= '9' then c as int - '0' as int else c as int - 'a' as int + 10
  }

  /** `fmt.Sprintf("%x", bs)`: two lowercase hex digits per byte, high nibble first. */
  function HexEncode(bs: seq<Byte>): (r: string)
    ensures |r| == 2 * |bs|
    ensures forall i :: 0 <= i < |r| ==> IsLowerHex(r[i])
  {
    if bs == [] then "" else [HexChar(bs[0] / 16), HexChar(bs[0] % 16)] + HexEncode(bs[1..])
  }

  /** Reads bytes back from lowercase hex; fails on odd length or any other character. */
  function HexDecode(s: string): (r: Option<seq<Byte>>)
    ensures r.Some? ==> 2 * |r.value| == |s|
  {
    if s == [] then Some([])
    else if |s| == 1 || !IsLowerHex(s[0]) || !IsLowerHex(s[1]) then None
    else match HexDecode(s[2..])
      case None => None
      case Some(rest) => Some([HexValue(s[0]) * 16 + HexValue(s[1])] + rest)
  }

  /** Decoding undoes encoding. */
  lemma {:induction false} HexRoundTrip(bs: seq<Byte>)
    ensures HexDecode(HexEncode(bs)) == Some(bs)
  {
    if bs != [] {
      var s := HexEncode(bs);
      assert s[2..] == HexEncode(bs[1..]);
      HexRoundTrip(bs[1..]);
      assert HexValue(s[0]) == bs[0] / 16 && HexValue(s[1]) == bs[0] % 16;
      assert [bs[0]] + bs[1..] == bs;
    }
  }

  /** The hex encoding is injective: distinct byte strings have distinct encodings. */
  lemma HexInjective(a: seq<Byte>, b: seq<Byte>)
    requires HexEncode(a) == HexEncode(b)
    ensures a == b
  {
    HexRoundTrip(a);
    HexRoundTrip(b);
  }

  /** The output of `MD5` and of `GetFileMd5`: the digest in lowercase hex, 32 characters. */
  function HexDigest(d: Digest): (r: string)
    ensures |r| == 32
    ensures forall i :: 0 <= i < 32 ==> IsLowerHex(r[i])
    ensures HexDecode(r) == Some(d)
  {
    HexRoundTrip(d);
    HexEncode(d)
  }

  /**
   * `GetUUID`: `random` is None when reading the 48 random bytes failed, and
   * otherwise the MD5 digest of their URL-safe base64 text. The 32-char hex id
   * is cut 8-4-4-4-12 and joined with dashes.
   */
  function GetUUID(random: Option<Digest>): (r: string)
    ensures r == "" <==> random.None?
    ensures random.Some? ==> |r| == 36 && r[8] == '-' && r[13] == '-' && r[18] == '-' && r[23] == '-'
    ensures random.Some? ==>
      forall i :: 0 <= i < 36 && i != 8 && i != 13 && i != 18 && i != 23 ==> IsLowerHex(r[i])
  {
    match random
    case None => ""
    case Some(d) =>
      var id := HexDigest(d);
      id[0..8] + "-" + id[8..12] + "-" + id[12..16] + "-" + id[16..20] + "-" + id[20..]
  }

  /** Removing dashes from two pieces joined by a dash. */
  lemma RemoveAcrossDash(x: string, y: string)
    ensures Remove(x + "-" + y, '-') == Remove(x, '-') + Remove(y, '-')
  {
    RemoveConcat(x + "-", y, '-');
    RemoveConcat(x, "-", '-');
    assert Remove("-", '-') == "";
  }

  /** Taking the dashes out of a UUID gives back the hex id it was cut from. */
  lemma UUIDWithoutDashes(d: Digest)
    ensures Remove(GetUUID(Some(d)), '-') == HexDigest(d)
  {
    var id := HexDigest(d);
    assert '-' !in id by {
      forall i | 0 <= i < 32 ensures id[i] != '-' { assert IsLowerHex(id[i]); }
    }
    var a, b, c, e, f := id[0..8], id[8..12], id[12..16], id[16..20], id[20..];
    assert '-' !in a && '-' !in b && '-' !in c && '-' !in e && '-' !in f;
    RemoveAbsent(a, '-'); RemoveAbsent(b, '-'); RemoveAbsent(c, '-');
    RemoveAbsent(e, '-'); RemoveAbsent(f, '-');
    var x1 := a + "-" + b;
    var x2 := x1 + "-" + c;
    var x3 := x2 + "-" + e;
    var x4 := x3 + "-" + f;
    assert GetUUID(Some(d)) == x4;
    RemoveAcrossDash(a, b);
    RemoveAcrossDash(x1, c);
    RemoveAcrossDash(x2, e);
    RemoveAcrossDash(x3, f);
    assert id == a + b + c + e + f;
  }

  /** What `filepath.Walk` reports for one visited path; `info` is None when it could not stat it. */
  datatype WalkEntry = WalkEntry(path: string, info: Option<EntryInfo>)

  datatype EntryInfo = EntryInfo(isDir: bool)

  /** The entries `ListFile` keeps: those with file information that are not directories. */
  predicate IsFile(e: WalkEntry)
  {
    e.info.Some? && !e.info.value.isDir
  }

  /** The path with every backslash turned into a slash. */
  function Normalize(p: string): (r: string)
    ensures '\\' !in r
  {
    ReplaceAll(p, '\\', '/')
  }

  /** The listing of a walk: the normalised paths of its file entries, in walk order. */
  function Files(walk: seq<WalkEntry>): seq<string>
  {
    if walk == [] then []
    else Files(walk[..|walk| - 1]) + (if IsFile(walk[|walk| - 1]) then [Normalize(walk[|walk| - 1].path)] else [])
  }

  /** `ListFile`: appends each file entry's normalised path while the walk proceeds. */
  method ListFile(walk: seq<WalkEntry>) returns (fileList: seq<string>)
    ensures fileList == Files(walk)
    ensures forall p :: p in fileList ==> '\\' !in p
  {
    fileList := [];
    for i := 0 to |walk|
      invariant fileList == Files(walk[..i])
    {
      assert walk[..i + 1][..i] == walk[..i];
      if IsFile(walk[i]) {
        fileList := fileList + [Normalize(walk[i].path)];
      }
    }
    assert walk[..|walk|] == walk;
    FilesMembership(walk);
  }

  /** A path is listed exactly when some file entry of the walk normalises to it. */
  lemma {:induction false} FilesMembership(walk: seq<WalkEntry>)
    ensures forall p :: p in Files(walk) <==> exists i :: 0 <= i < |walk| && IsFile(walk[i]) && p == Normalize(walk[i].path)
  {
    if walk != [] {
      var init := walk[..|walk| - 1];
      FilesMembership(init);
      forall p ensures p in Files(walk) <==> exists i :: 0 <= i < |walk| && IsFile(walk[i]) && p == Normalize(walk[i].path) {
        if p in Files(walk) && p !in Files(init) {
          assert IsFile(walk[|walk| - 1]) && p == Normalize(walk[|walk| - 1].path);
        }
        if exists i :: 0 <= i < |walk| && IsFile(walk[i]) && p == Normalize(walk[i].path) {
          var i :| 0 <= i < |walk| && IsFile(walk[i]) && p == Normalize(walk[i].path);
          if i < |walk| - 1 {
            assert init[i] == walk[i];
          }
        }
      }
    }
  }

  /** The listing follows the walk: the listing of a concatenated walk is the concatenation. */
  lemma {:induction false} FilesConcat(w1: seq<WalkEntry>, w2: seq<WalkEntry>)
    ensures Files(w1 + w2) == Files(w1) + Files(w2)
    decreases |w2|
  {
    if w2 == [] {
      assert w1 + w2 == w1;
    } else {
      var w2i := w2[..|w2| - 1];
      assert (w1 + w2)[..|w1 + w2| - 1] == w1 + w2i;
      FilesConcat(w1, w2i);
    }
  }

  /** A listed path is already normalised: normalising it again changes nothing. */
  lemma FilesNormalised(walk: seq<WalkEntry>)
    ensures forall p :: p in Files(walk) ==> Normalize(p) == p
  {
    FilesMembership(walk);
    forall p | p in Files(walk) ensures Normalize(p) == p {
      var i :| 0 <= i < |walk| && IsFile(walk[i]) && p == Normalize(walk[i].path);
      ReplaceAllIdempotent(walk[i].path, '\\', '/');
    }
  }
}

=== FILE: wrappers.dfy ===
/** Option and Result values for operations that can fail. */
module Wrappers {

  datatype Option<+T> = None | Some(value: T)

  datatype Result<+T, +E> = Success(value: T) | Failure(error: E)
}
